=== FILE: README.md ===
# Cross-chain NFT client: mint lifecycle and gallery, in Dafny

This project models the two pieces of logic in the Next.js front end of the
cross-chain NFT client.

- **The dashboard's mint lifecycle** (`Dashboard.js`). Pressing *Mint* sets the
  busy flag (`status`) and predicts the balance after the mint as the stored
  balance plus one. A confirmed mint transaction arms `startMintNFT`. A
  500 ms timer re-reads the balance, the controller state and the owner's
  variant list. Each poll first decides completion from the values stored by
  the previous poll, and then stores the fresh reads. Completion needs three
  things: the dashboard is armed, the stored balance equals the prediction, and
  the stored list is present. On completion the poll clears busy and armed,
  opens the dialog, and shows the descriptor of the newest variant. One error
  handler serves the mint, approve and transfer calls and clears busy. So a
  failed approve or transfer also re-enables *Mint*, even while a mint is
  armed. The *Mint* button is disabled while the mint call is loading or
  fetching, while busy, or while the controller state is 1.
- **The gallery** (`DisplayNFT.js`). A timer replaces the stored token-id list
  and variant list with fresh reads. The component builds one card per token
  id, titled by that token's variant. It shows a "no NFT" message when the
  token list is empty.
- **The variant lookup `getSrc`**, present in both files with different
  titles. It is total: 0, 1 and 2 are Gold, Silver and Bronze, and everything
  else is the fallback `("xx", "/logo.png")`.

Files:

- `reads.dfy` (module `Reads`): a stored read. `Option` models a failed read
  (`undefined`). `Slot` models a stored list, which starts as the placeholder
  string `"0"`. It also models JavaScript truthiness, `.length` and indexing.
- `descriptors.dfy` (module `Descriptors`): the two `getSrc` copies over one
  shared variant test and one image table.
- `dashboard.dfy` (module `Dashboard`): the state record, the transitions
  `StartMint`, `OnSuccess`, `OnError`, `CloseModal` and `Poll`, and the
  button guard `MintDisabled`. Event runs (`Step`, `Run`) carry the lifecycle
  lemmas.
- `display_nft.dfy` (module `DisplayNft`): the gallery poll, the card zip,
  `isAddressToTokenIds` (`HasTokens`), and the card guard, both as written
  and corrected.

Modelling choices:

- Stored values follow the code's JavaScript semantics. The balance and
  controller state are stored as `toString()` of the read, or `undefined`;
  they are modelled as `Option<nat>` and `Option<int>`, with the placeholder
  `"0"` as `Some(0)`. Comparison with `==` then coerces the string back to a
  number, which this normalisation captures. The prediction
  `parseInt(balanceOf) + 1` is `NaN` when the stored balance is `undefined`.
  It is modelled as `None`, and `None` never matches.
- `getSrc` uses `===`, so only an actual number selects a variant. The
  placeholder's character `"0"` and an index past the end of a list
  (`undefined`) both fall to the fallback.
- A failed read is stored as `undefined`. The code keeps no last good value.

Behaviour of the code that the model keeps as it is:

- Completion tests only that the stored list is present, so an empty list
  passes (`Dashboard.js:96`). The dialog then shows the fallback descriptor.
- The dialog opens at the earliest on the second poll that reads the new
  balance. A poll completes only on the balance stored by the previous poll,
  because the callback compares the values from the last render
  (`Dashboard.js:90-96`; `Dashboard.MintOfSilver`). Arming waits for the
  confirmation (`Dashboard.js:71-74`). If the confirmation arrives later, the
  dialog opens on the first poll after it
  (`Dashboard.MintConfirmedAfterBalance`).
- Nothing rejects a second mint while one is armed. Only the disabled button
  prevents it (`Dashboard.js:150`; `Dashboard.MintBlockedWhileInFlight`).
- A failed read overwrites the stored value with `undefined`
  (`Dashboard.js:93-95`, `DisplayNFT.js:30-31`).

## Model

| member | source | states |
|---|---|---|
| Descriptors.MintSrc | nextJs/components/Dashboard.js:124-134 | total: 0, 1, 2 give ("Gold NFT !!", "/Gold.png"), ("Silver NFT!!", "/Silver.png"), ("Bronze NFT!!", "/Bronze.png"); every other number, undefined or string gives ("xx", "/logo.png") |
| Descriptors.CardSrc | nextJs/components/DisplayNFT.js:68-78 | total: 0, 1, 2 give ("Gold", "/Gold.png"), ("Silver", "/Silver.png"), ("Bronze", "/Bronze.png"); every other value gives ("xx", "/logo.png") |
| Descriptors.CopiesAgree | nextJs/components/DisplayNFT.js:68-78 | the two copies choose the same picture for every input, and the gallery title is a prefix of the dialog title |
| Descriptors.ImagesDistinguishVariants | nextJs/components/Dashboard.js:124-134 | two inputs get the same picture exactly when they select the same variant, so no known variant is shown with the fallback logo |
| Dashboard.StartMint | nextJs/components/Dashboard.js:83-86 | sets busy; the prediction becomes the stored balance + 1, or NaN when the stored balance is undefined; nothing else changes |
| Dashboard.OnSuccess | nextJs/components/Dashboard.js:70-76 | a confirmed mint arms completion; approve and transfer successes leave the state unchanged; no other field changes |
| Dashboard.OnError | nextJs/components/Dashboard.js:78-81 | clears busy and changes no other field |
| Dashboard.CloseModal | nextJs/components/Dashboard.js:165 | closes the dialog and changes no other field |
| Dashboard.Poll | nextJs/components/Dashboard.js:89-104 | stores the fresh balance, controller state and list whatever happens; completes exactly when armed, the previously stored balance equals the prediction and the stored list is present; completion clears busy and armed, opens the dialog and shows `getSrc` of the last stored variant; otherwise the flags and dialog are untouched |
| Dashboard.MintDisabled | nextJs/components/Dashboard.js:150 | the button is disabled whenever the mint call is loading or fetching, the dashboard is busy or the last controller read is 1, and enabled when the mint call is neither loading nor fetching, the dashboard is not busy and the controller read is anything but 1 |
| Dashboard.FiresAtMostOncePerArm | nextJs/components/Dashboard.js:96-99 | over any run of events, completion fires no more often than the number of confirmed mints, plus one if already armed |
| Dashboard.NoRefireUntilRearmed | nextJs/components/Dashboard.js:96-99 | after a completing poll, no later event fires again until a mint is confirmed again, whatever the later reads |
| Dashboard.NoDialogWithoutMint | nextJs/components/Dashboard.js:96-98 | with the dashboard unarmed and the dialog closed, no run without a confirmed mint ever opens the dialog or arms |
| Dashboard.InitialNeverShowsDialogWithoutMint | nextJs/components/Dashboard.js:9-13 | in the initial state the stored balance already equals the prediction (both "0"), yet no run without a confirmed mint opens the dialog |
| Dashboard.WaitsUntilBalanceReached | nextJs/components/Dashboard.js:89-96 | while neither the stored balance nor any polled balance reaches the prediction, polling never fires and keeps armed, busy and the prediction |
| Dashboard.MintBlockedWhileInFlight | nextJs/components/Dashboard.js:150 | once busy, the mint button stays disabled through any run with no error and no completion |
| Dashboard.CompletionReleasesMint | nextJs/components/Dashboard.js:150 | after a completing poll the button is disabled exactly when loading, fetching or the fresh controller state is 1 |
| Dashboard.PausedControllerBlocksMint | nextJs/components/Dashboard.js:150 | after a poll that reads controller state 1, the button is disabled regardless of the other inputs |
| Dashboard.ActiveControllerLeavesMintToBusy | nextJs/components/Dashboard.js:150 | after a poll that reads any controller state other than 1, the button is disabled exactly when the mint call is loading or fetching or the dashboard is busy |
| Dashboard.MintOfSilver | nextJs/components/Dashboard.js:83-103 | scenario: balance 2, mint, confirmation, polls reading 2, 3, 3, 3 with newest variant 1; the dialog opens once, on the second poll that reads 3, with ("Silver NFT!!", "/Silver.png"), and the next poll does not fire again |
| Dashboard.MintConfirmedAfterBalance | nextJs/components/Dashboard.js:70-103 | scenario: balance 2, mint, two polls reading 3 before the confirmation arrives; neither poll fires, the dialog stays closed and busy stays set; the first poll after the confirmation opens the dialog with ("Silver NFT!!", "/Silver.png") |
| DisplayNft.Poll | nextJs/components/DisplayNFT.js:27-32 | after a poll both stored values are fetched reads, no longer the "0" placeholder, and they are exactly the fresh reads, a failed read stored as `undefined` |
| DisplayNft.PollReplacesWholesale | nextJs/components/DisplayNFT.js:27-32 | a poll stores exactly the two fresh reads, a failed read as `undefined` and never as the "0" placeholder, keeps nothing of the previous gallery, and is idempotent |
| DisplayNft.ZipCards | nextJs/components/DisplayNFT.js:43-57 | one card per token id, in order; card i carries token id i and `getSrc` of variant i, undefined past the end of the variant list |
| DisplayNft.CardsAsWritten | nextJs/components/DisplayNFT.js:41-58 | when both stored values are truthy and web3 is enabled, there is one card per element of the stored token value (one for the placeholder "0"), and card i pairs that element with `getSrc` of variant i; otherwise there are no cards |
| DisplayNft.PhantomCardBeforeFirstPoll | nextJs/components/DisplayNFT.js:9-10 | as written, the initial gallery with web3 enabled shows one card, token 0 with the fallback logo; the corrected guard shows none |
| DisplayNft.Cards | nextJs/components/DisplayNFT.js:41-46 | when both lists are present and web3 is enabled, there are exactly as many cards as token ids, card i pairs token id i with the descriptor of variant i; otherwise there are no cards |
| DisplayNft.CardsAgreeAfterFirstPoll | nextJs/components/DisplayNFT.js:42 | after any poll the as-written and corrected guards build the same cards |
| DisplayNft.MissingVariantFallsBack | nextJs/components/DisplayNFT.js:45 | a card whose index is past the end of the variant list gets ("xx", "/logo.png") |
| DisplayNft.HasTokens | nextJs/components/DisplayNFT.js:60-66 | false exactly when the token list has been fetched and is empty; true when absent, failed or non-empty |
| DisplayNft.NoTokensMessageHidesNothing | nextJs/components/DisplayNFT.js:84-88 | the "no NFT" message replaces only an empty card list, and an owner with cards never sees it |

## Left out

- React hooks, rendering and markup. `Header.js` and `pages/your-nft.js` hold no logic and are not part of this model.
- The contract calls through `useWeb3Contract`, and the contract addresses. Their results are the observation inputs of `Poll`. How the contract ABI decodes the variant list (plain numbers or big-number objects) is not part of this model; variants are taken to be integers.
- Transaction signing and `tx.wait("1")`. The wait is the first statement inside the success handler (`Dashboard.js:71`). A mint that reverts on chain enters that handler and throws there, before it notifies or arms. The error handler never runs, so the busy flag stays set and *Mint* stays disabled until an approve or transfer error clears it. The model expresses the throw by issuing no event; `Dashboard.MintBlockedWhileInFlight` shows that the button then stays disabled through any run without an error.
- The notification dispatch (`Dashboard.js:114-122`) and the `chainId == "5"` view gate.
- The 500 ms `setInterval` and its `clearInterval` cleanup. Overlapping asynchronous `updateUI` calls are also left out, because they are a timing and concurrency concern. The model treats each poll as atomic, applied in order.
- The `console.log(error)` in the error handler (`Dashboard.js:80`). It only writes to the browser console and changes no state.
- The approve and transfer parameters (receiver, token id). They only feed contract calls.
- The balance's string form. Balances are normalised to `nat`, as described above.

## Findings

| source | as written | input that shows it | evidently intended | confidence | as-written member | corrected member |
|---|---|---|---|---|---|---|
| nextJs/components/DisplayNFT.js:9-10 | both lists start as the string "0"; the card guard at line 42 tests only truthiness, and "0" is truthy with length 1 | the initial gallery with web3 enabled, before the first poll completes | no cards until both lists have been read | medium, not executed | DisplayNft.CardsAsWritten, DisplayNft.PhantomCardBeforeFirstPoll | DisplayNft.Cards |

=== FILE: dashboard.dfy ===
/**
 The mint lifecycle of the dashboard.

 The component keeps a busy flag, an armed flag that says a mint transaction
 has been confirmed and its NFT is awaited, the predicted balance after that
 mint, the last observed balance, controller state and variant list, and the
 dialog that announces the new NFT. A timer re-reads the contracts; each poll
 decides completion from the values stored by the previous poll (the callback
 sees the last render) and then stores the fresh reads.
 */
module Dashboard {
  import opened Reads
  import opened Descriptors

  /** One round of the three contract reads; `None` is a failed read. */
  datatype Observation = Observation(
    balance: Option<nat>,
    controller: Option<int>,
    uris: Option<seq<int>>)

  /** Which button's transaction succeeded; only the mint button tags its success. */
  datatype TxKind = MintTx | ApproveTx | TransferTx

  datatype State = State(
    busy: bool,                 // status
    armed: bool,                // startMintNFT
    predicted: Option<nat>,     // balanceOfPlusOne; None stands for NaN
    balance: Option<nat>,       // balanceOf
    controller: Option<int>,    // controllerState
    uris: Slot,                 // addressToUris
    showModal: bool,
    title: string,
    src: string)

  /** The state at mount: every stored read is the string "0". */
  const Initial: State :=
    State(false, false, Some(0), Some(0), Some(0), Placeholder, false, "0", "0")

  /** Loose equality of a balance read with the prediction: NaN and undefined equal nothing. */
  predicate Reaches(b: Option<nat>, predicted: Option<nat>) {
    b.Some? && predicted == b
  }

  /** The stored balance has reached the prediction. */
  predicate BalanceReached(s: State) {
    Reaches(s.balance, s.predicted)
  }

  /** The completion test of a poll, on the values stored before it. */
  predicate Completes(s: State) {
    s.armed && BalanceReached(s) && Truthy(s.uris)
  }

  /** The variant of the newest NFT: the last element of the stored list. */
  function NewestUri(s: State): Option<int> {
    UriAt(s.uris, Length(s.uris) - 1)
  }

  /** Pressing the mint button: busy, and the prediction is the stored balance plus one. */
  function StartMint(s: State): (r: State)
    ensures r.busy
    ensures s.balance.Some? ==> r.predicted == Some(s.balance.value + 1)
    ensures s.balance.None? ==> r.predicted.None?
    ensures r == s.(busy := true, predicted := r.predicted)
  {
    var predicted := match s.balance
      case Some(b) => Some(b + 1)
      case None => None;
    s.(busy := true, predicted := predicted)
  }

  /** A confirmed transaction: only a mint arms completion; nothing else changes. */
  function OnSuccess(s: State, kind: TxKind): (r: State)
    ensures r.armed <==> s.armed || kind == MintTx
    ensures kind != MintTx ==> r == s
    ensures r == s.(armed := r.armed)
  {
    if kind == MintTx then s.(armed := true) else s
  }

  /** A rejected or failed transaction: the busy flag drops and nothing else changes. */
  function OnError(s: State): (r: State)
    ensures !r.busy
    ensures r == s.(busy := false)
  {
    s.(busy := false)
  }

  /** The dialog's close button. */
  function CloseModal(s: State): (r: State)
    ensures !r.showModal
    ensures r == s.(showModal := false)
  {
    s.(showModal := false)
  }

  /** One timer tick. */
  function Poll(s: State, o: Observation): (r: State)
    // every poll stores what it read, whether or not it completed
    ensures r.balance == o.balance && r.controller == o.controller && r.uris == Fetched(o.uris)
    ensures r.predicted == s.predicted
    // completion: all three conditions, on the previously stored values
    ensures s.armed && s.balance.Some? && s.predicted == s.balance && Truthy(s.uris) ==>
              !r.busy && r.showModal && !r.armed
              && Descriptor(r.title, r.src) == MintSrc(UriAt(s.uris, Length(s.uris) - 1))
    ensures !(s.armed && s.balance.Some? && s.predicted == s.balance && Truthy(s.uris)) ==>
              r.busy == s.busy && r.armed == s.armed && r.showModal == s.showModal
              && r.title == s.title && r.src == s.src
  {
    var stored := s.(balance := o.balance, controller := o.controller, uris := Fetched(o.uris));
    if Completes(s) then
      var d := MintSrc(NewestUri(s));
      stored.(busy := false, showModal := true, armed := false, title := d.title, src := d.image)
    else
      stored
  }

  /**
   The mint button's `disabled` attribute. `loading` and `fetching` belong to
   the mint call alone. A loading or fetching mint call, a busy dashboard and
   a paused controller (state 1 as last read) each disable the button by
   themselves; with the mint call idle,
   an idle dashboard and any other controller state enable it.
   */
  predicate MintDisabled(s: State, loading: bool, fetching: bool)
    ensures loading || fetching ==> MintDisabled(s, loading, fetching)
    ensures s.busy ==> MintDisabled(s, loading, fetching)
    ensures s.controller == Some(1) ==> MintDisabled(s, loading, fetching)
    ensures !loading && !fetching && !s.busy && s.controller != Some(1) ==> !MintDisabled(s, loading, fetching)
  {
    loading || fetching || s.busy || s.controller == Some(1)
  }

  /** Everything that can happen to the dashboard, in the order it happens. */
  datatype Event =
    | Started
    | Succeeded(kind: TxKind)
    | Failed
    | Polled(obs: Observation)
    | ModalClosed

  function Step(s: State, e: Event): State {
    match e
    case Started => StartMint(s)
    case Succeeded(kind) => OnSuccess(s, kind)
    case Failed => OnError(s)
    case Polled(o) => Poll(s, o)
    case ModalClosed => CloseModal(s)
  }

  function Run(s: State, es: seq<Event>): State
    decreases |es|
  {
    if |es| == 0 then s else Run(Step(s, es[0]), es[1..])
  }

  /** Does this event announce a completed mint? */
  predicate Fires(s: State, e: Event) {
    e.Polled? && Completes(s)
  }

  /** How many times a run announces a completed mint. */
  function Fired(s: State, es: seq<Event>): nat
    decreases |es|
  {
    if |es| == 0 then 0
    else (if Fires(s, es[0]) then 1 else 0) + Fired(Step(s, es[0]), es[1..])
  }

  /** How many confirmed mints a run contains. */
  function Arms(es: seq<Event>): nat
    decreases |es|
  {
    if |es| == 0 then 0
    else (if es[0] == Succeeded(MintTx) then 1 else 0) + Arms(es[1..])
  }

  /** One step keeps the armed flag unless it is a confirmed mint or a completing poll. */
  lemma StepArmed(s: State, e: Event)
    ensures Fires(s, e) ==> !Step(s, e).armed
    ensures e == Succeeded(MintTx) ==> Step(s, e).armed
    ensures !Fires(s, e) && e != Succeeded(MintTx) ==> Step(s, e).armed == s.armed
  {
  }

  /**
   At-most-once firing: a run announces completion no more often than it is
   armed, counting an arming already in place at its start.
   */
  lemma {:induction false} FiresAtMostOncePerArm(s: State, es: seq<Event>)
    ensures Fired(s, es) <= Arms(es) + (if s.armed then 1 else 0)
    decreases |es|
  {
    if |es| > 0 {
      StepArmed(s, es[0]);
      FiresAtMostOncePerArm(Step(s, es[0]), es[1..]);
    }
  }

  /** After a completing poll, no later poll fires until a mint is confirmed again. */
  lemma {:induction false} NoRefireUntilRearmed(s: State, o: Observation, es: seq<Event>)
    requires Completes(s)
    requires forall i :: 0 <= i < |es| ==> es[i] != Succeeded(MintTx)
    ensures Fired(Poll(s, o), es) == 0
  {
    assert Arms(es) == 0 by { NoArms(es); }
    FiresAtMostOncePerArm(Poll(s, o), es);
  }

  lemma {:induction false} NoArms(es: seq<Event>)
    requires forall i :: 0 <= i < |es| ==> es[i] != Succeeded(MintTx)
    ensures Arms(es) == 0
    decreases |es|
  {
    if |es| > 0 {
      assert es[0] != Succeeded(MintTx);
      NoArms(es[1..]);
    }
  }

  /**
   Without a confirmed mint nothing ever shows the dialog: not polls, and not
   any other event. In the initial state the balance and prediction already
   agree (both "0"), so it is the armed flag alone that holds the dialog back.
   */
  lemma {:induction false} NoDialogWithoutMint(s: State, es: seq<Event>)
    requires !s.armed && !s.showModal
    requires forall i :: 0 <= i < |es| ==> es[i] != Succeeded(MintTx)
    ensures !Run(s, es).showModal && !Run(s, es).armed
    decreases |es|
  {
    if |es| > 0 {
      assert es[0] != Succeeded(MintTx);
      var t := Step(s, es[0]);
      assert !t.armed && !t.showModal;
      assert forall i :: 0 <= i < |es[1..]| ==> es[1..][i] == es[i + 1];
      NoDialogWithoutMint(t, es[1..]);
    }
  }

  lemma InitialNeverShowsDialogWithoutMint(es: seq<Event>)
    requires forall i :: 0 <= i < |es| ==> es[i] != Succeeded(MintTx)
    ensures BalanceReached(Initial)
    ensures !Run(Initial, es).showModal
  {
    NoDialogWithoutMint(Initial, es);
  }

  /**
   While no read reaches the predicted balance, polling never completes and the
   dashboard stays armed and busy with the same prediction.
   */
  lemma {:induction false} WaitsUntilBalanceReached(s: State, es: seq<Event>)
    requires !Reaches(s.balance, s.predicted)
    requires forall i :: 0 <= i < |es| ==> es[i].Polled? && !Reaches(es[i].obs.balance, s.predicted)
    ensures Fired(s, es) == 0
    ensures Run(s, es).armed == s.armed && Run(s, es).busy == s.busy
    ensures Run(s, es).predicted == s.predicted
    decreases |es|
  {
    if |es| > 0 {
      assert es[0].Polled? && !Reaches(es[0].obs.balance, s.predicted);
      var t := Step(s, es[0]);
      assert forall i :: 0 <= i < |es[1..]| ==> es[1..][i] == es[i + 1];
      WaitsUntilBalanceReached(t, es[1..]);
    }
  }

  /** Once pressed, the mint button stays disabled until a completing poll or an error. */
  lemma {:induction false} MintBlockedWhileInFlight(s: State, es: seq<Event>, loading: bool, fetching: bool)
    requires s.busy
    requires forall i :: 0 <= i < |es| ==> es[i] != Failed
    requires Fired(s, es) == 0
    ensures Run(s, es).busy
    ensures MintDisabled(Run(s, es), loading, fetching)
    decreases |es|
  {
    if |es| > 0 {
      assert es[0] != Failed;
      var t := Step(s, es[0]);
      assert forall i :: 0 <= i < |es[1..]| ==> es[1..][i] == es[i + 1];
      MintBlockedWhileInFlight(t, es[1..], loading, fetching);
    }
  }

  /** The button is pressable after a completion exactly when nothing else holds it: not loading, not paused. */
  lemma CompletionReleasesMint(s: State, o: Observation, loading: bool, fetching: bool)
    requires Completes(s)
    ensures MintDisabled(Poll(s, o), loading, fetching) <==> loading || fetching || o.controller == Some(1)
  {
  }

  /** A paused controller (state 1 as last read) disables minting whatever else holds. */
  lemma PausedControllerBlocksMint(s: State, o: Observation, loading: bool, fetching: bool)
    requires o.controller == Some(1)
    ensures MintDisabled(Poll(s, o), loading, fetching)
  {
  }

  /** With any other controller state read, the button is held back only by the mint call or the busy flag. */
  lemma ActiveControllerLeavesMintToBusy(s: State, o: Observation, loading: bool, fetching: bool)
    requires o.controller != Some(1)
    ensures MintDisabled(Poll(s, o), loading, fetching) <==> loading || fetching || Poll(s, o).busy
  {
  }

  /**
   The lifecycle with balance 2 before the mint, newest variant 1, when the
   confirmation arrives before the new balance is read. The completion test
   reads the balance stored by the previous poll, so the dialog appears on the
   second poll that reads balance 3, not the first, and a further identical
   poll does not show it again.
   */
  lemma MintOfSilver()
    ensures var seen2 := Observation(Some(2), Some(0), Some([0, 2]));
            var seen3 := Observation(Some(3), Some(0), Some([0, 2, 1]));
            var s1 := Poll(Initial, seen2);
            var s2 := OnSuccess(StartMint(s1), MintTx);
            var s3 := Poll(s2, seen2);
            var s4 := Poll(s3, seen3);
            var s5 := Poll(s4, seen3);
            var s6 := Poll(s5, seen3);
            && s2.predicted == Some(3) && s2.armed && s2.busy
            && s3.armed && !s3.showModal
            && s4.armed && !s4.showModal
            && !s5.armed && !s5.busy && s5.showModal
            && s5.title == "Silver NFT!!" && s5.src == "/Silver.png"
            && !Fires(s5, Polled(seen3)) && s6.showModal && s6.title == s5.title
  {
  }

  /**
   The same mint when the new balance is read before the confirmation
   arrives: polls that already read balance 3 do not fire while unarmed, and
   the first poll after the confirmation opens the dialog.
   */
  lemma MintConfirmedAfterBalance()
    ensures var seen2 := Observation(Some(2), Some(0), Some([0, 2]));
            var seen3 := Observation(Some(3), Some(0), Some([0, 2, 1]));
            var s1 := StartMint(Poll(Initial, seen2));
            var s2 := Poll(s1, seen3);
            var s3 := Poll(s2, seen3);
            var s4 := OnSuccess(s3, MintTx);
            var s5 := Poll(s4, seen3);
            && !Fires(s1, Polled(seen3)) && !Fires(s2, Polled(seen3))
            && s3.busy && !s3.armed && !s3.showModal
            && BalanceReached(s3)
            && Fires(s4, Polled(seen3))
            && s5.showModal && !s5.busy && !s5.armed
            && s5.title == "Silver NFT!!" && s5.src == "/Silver.png"
  {
  }
}

=== FILE: descriptors.dfy ===
/**
 The variant-index lookup `getSrc`, which exists twice: the mint dialog's copy
 in the dashboard and the gallery copy that titles the cards. Both compare the
 index with `===`, so only the numbers 0, 1 and 2 select a named variant;
 every other number, `undefined` and any string fall to the last branch.
 */
module Descriptors {
  import opened Reads

  datatype Variant = Gold | Silver | Bronze | Unknown

  /** What a card or the mint dialog shows for one NFT. */
  datatype Descriptor = Descriptor(title: string, image: string)

  /** The chain of strict equality tests, shared by both copies. */
  function VariantOf(uri: Option<int>): (v: Variant)
    ensures v == Gold <==> uri == Some(0)
    ensures v == Silver <==> uri == Some(1)
    ensures v == Bronze <==> uri == Some(2)
    ensures v == Unknown <==> uri.None? || uri.value < 0 || 2 < uri.value
  {
    match uri
    case Some(0) => Gold
    case Some(1) => Silver
    case Some(2) => Bronze
    case _ => Unknown
  }

  /** Image path; the same in both copies. */
  function Image(v: Variant): string {
    match v
    case Gold => "/Gold.png"
    case Silver => "/Silver.png"
    case Bronze => "/Bronze.png"
    case Unknown => "/logo.png"
  }

  function MintTitle(v: Variant): string {
    match v
    case Gold => "Gold NFT !!"
    case Silver => "Silver NFT!!"
    case Bronze => "Bronze NFT!!"
    case Unknown => "xx"
  }

  function CardTitle(v: Variant): string {
    match v
    case Gold => "Gold"
    case Silver => "Silver"
    case Bronze => "Bronze"
    case Unknown => "xx"
  }

  /** The dashboard's `getSrc`: total over every value it can be handed. */
  function MintSrc(uri: Option<int>): (d: Descriptor)
    ensures uri == Some(0) ==> d == Descriptor("Gold NFT !!", "/Gold.png")
    ensures uri == Some(1) ==> d == Descriptor("Silver NFT!!", "/Silver.png")
    ensures uri == Some(2) ==> d == Descriptor("Bronze NFT!!", "/Bronze.png")
    ensures uri.None? || uri.value < 0 || 2 < uri.value ==> d == Descriptor("xx", "/logo.png")
  {
    var v := VariantOf(uri);
    Descriptor(MintTitle(v), Image(v))
  }

  /** The gallery's `getSrc`: total, with the short titles. */
  function CardSrc(uri: Option<int>): (d: Descriptor)
    ensures uri == Some(0) ==> d == Descriptor("Gold", "/Gold.png")
    ensures uri == Some(1) ==> d == Descriptor("Silver", "/Silver.png")
    ensures uri == Some(2) ==> d == Descriptor("Bronze", "/Bronze.png")
    ensures uri.None? || uri.value < 0 || 2 < uri.value ==> d == Descriptor("xx", "/logo.png")
  {
    var v := VariantOf(uri);
    Descriptor(CardTitle(v), Image(v))
  }

  /**
   The two copies agree on the picture for every input, and the gallery title
   is always a prefix of the dialog title ("Gold" of "Gold NFT !!").
   */
  lemma CopiesAgree(uri: Option<int>)
    ensures MintSrc(uri).image == CardSrc(uri).image
    ensures CardSrc(uri).title <= MintSrc(uri).title
  {
  }

  /**
   The picture identifies the variant: distinct variants get distinct images,
   so a known variant is never shown with the fallback logo.
   */
  lemma ImagesDistinguishVariants(u1: Option<int>, u2: Option<int>)
    ensures MintSrc(u1).image == MintSrc(u2).image <==> VariantOf(u1) == VariantOf(u2)
    ensures CardSrc(u1) == CardSrc(u2) <==> VariantOf(u1) == VariantOf(u2)
  {
  }
}

=== FILE: display_nft.dfy ===
/**
 The "your NFT" gallery: two stored lists, the token ids and the variant
 index of each token, re-read on a timer, and the cards built from them.
 */
module DisplayNft {
  import opened Reads
  import opened Descriptors

  datatype Gallery = Gallery(tokenIds: Slot, uris: Slot)

  /** What one card shows: its token id, title and picture. */
  datatype Card = Card(tokenId: int, look: Descriptor)

  /** Both stored lists start as the placeholder string "0". */
  const Initial: Gallery := Gallery(Placeholder, Placeholder)

  /** One timer tick: both stored lists are replaced by the fresh reads, failed or not. */
  function Poll(g: Gallery, tokenIds: Option<seq<int>>, uris: Option<seq<int>>): (r: Gallery)
    ensures r.tokenIds.Fetched? && r.uris.Fetched?
    ensures List(r.tokenIds) == tokenIds && List(r.uris) == uris
  {
    Gallery(Fetched(tokenIds), Fetched(uris))
  }

  /** A poll keeps nothing of the gallery it replaces, and polling twice on the same reads is polling once. */
  lemma PollReplacesWholesale(g: Gallery, h: Gallery, tokenIds: Option<seq<int>>, uris: Option<seq<int>>)
    ensures Poll(g, tokenIds, uris) == Poll(h, tokenIds, uris)
    ensures Poll(Poll(g, tokenIds, uris), tokenIds, uris) == Poll(g, tokenIds, uris)
    ensures Poll(g, tokenIds, uris) == Gallery(Fetched(tokenIds), Fetched(uris))
    ensures List(Poll(g, tokenIds, uris).tokenIds) == tokenIds
    ensures List(Poll(g, tokenIds, uris).uris) == uris
  {
  }

  /**
   The card loop: card i pairs the i-th token id with the descriptor of the
   i-th variant index, which is undefined (the fallback) beyond the end of the
   variant list. Cards are pushed in token-id order.
   */
  function ZipCards(ids: seq<int>, uris: Slot): (cards: seq<Card>)
    ensures |cards| == |ids|
    ensures forall i :: 0 <= i < |ids| ==> cards[i] == Card(ids[i], CardSrc(UriAt(uris, i)))
    decreases |ids|
  {
    if |ids| == 0 then []
    else
      var n := |ids| - 1;
      ZipCards(ids[..n], uris) + [Card(ids[n], CardSrc(UriAt(uris, n)))]
  }

  /**
   The token ids the loop walks over as written: a fetched list, or the one
   character of the placeholder "0", which a card displays as token id 0.
   */
  function LoopIds(slot: Slot): (ids: seq<int>)
    ensures |ids| == Length(slot)
  {
    match slot
    case Placeholder => [0]
    case Fetched(None) => []
    case Fetched(Some(xs)) => xs
  }

  /** The cards as the component builds them: the guard only tests truthiness. */
  function CardsAsWritten(g: Gallery, web3: bool): (cards: seq<Card>)
    ensures |cards| == (if Truthy(g.uris) && Truthy(g.tokenIds) && web3 then Length(g.tokenIds) else 0)
    ensures Truthy(g.uris) && Truthy(g.tokenIds) && web3 ==>
              forall i :: 0 <= i < |cards| ==> cards[i] == Card(LoopIds(g.tokenIds)[i], CardSrc(UriAt(g.uris, i)))
  {
    if Truthy(g.uris) && Truthy(g.tokenIds) && web3 then ZipCards(LoopIds(g.tokenIds), g.uris) else []
  }

  /**
   Before the first poll both placeholders pass the truthiness guard, so the
   gallery shows a card for token 0 with the fallback logo although nothing
   has been read yet; the corrected guard shows none.
   */
  lemma PhantomCardBeforeFirstPoll()
    ensures CardsAsWritten(Initial, true) == [Card(0, Descriptor("xx", "/logo.png"))]
    ensures HasTokens(Initial.tokenIds)
    ensures Cards(Initial, true) == []
  {
    assert UriAt(Placeholder, 0) == None;
  }

  /**
   The cards with the guard requiring both reads to have delivered a list: as
   many cards as token ids, in token-id order, each with its own variant, and
   no cards at all otherwise.
   */
  function Cards(g: Gallery, web3: bool): (cards: seq<Card>)
    ensures web3 && List(g.tokenIds).Some? && List(g.uris).Some? ==>
              var ids := List(g.tokenIds).value;
              && |cards| == |ids|
              && forall i :: 0 <= i < |ids| ==> cards[i] == Card(ids[i], CardSrc(UriAt(g.uris, i)))
    ensures !(web3 && List(g.tokenIds).Some? && List(g.uris).Some?) ==> cards == []
  {
    match (g.tokenIds, g.uris)
    case (Fetched(Some(ids)), Fetched(Some(_))) => if web3 then ZipCards(ids, g.uris) else []
    case _ => []
  }

  /** The correction changes nothing once both lists have been fetched. */
  lemma CardsAgreeAfterFirstPoll(g: Gallery, tokenIds: Option<seq<int>>, uris: Option<seq<int>>, web3: bool)
    ensures CardsAsWritten(Poll(g, tokenIds, uris), web3) == Cards(Poll(g, tokenIds, uris), web3)
  {
  }

  /** A token beyond the end of the variant list gets the fallback descriptor. */
  lemma MissingVariantFallsBack(g: Gallery, web3: bool, i: int)
    requires 0 <= i < |Cards(g, web3)|
    requires i >= |List(g.uris).value|
    ensures Cards(g, web3)[i].look == Descriptor("xx", "/logo.png")
  {
  }

  /** `isAddressToTokenIds`: false only for a fetched, empty token list. */
  function HasTokens(slot: Slot): (r: bool)
    ensures !r <==> List(slot) == Some([])
  {
    !(Truthy(slot) && Length(slot) == 0)
  }

  /**
   The "no NFT" message replaces the card list only when that list is empty,
   and an owner with cards never sees the message.
   */
  lemma NoTokensMessageHidesNothing(g: Gallery, web3: bool)
    ensures !HasTokens(g.tokenIds) ==> Cards(g, web3) == [] && CardsAsWritten(g, web3) == []
    ensures Cards(g, web3) != [] ==> HasTokens(g.tokenIds)
  {
  }
}

=== FILE: reads.dfy ===
/**
 Values that the two components hold for a read from the NFT contracts.

 A read either returns a value or, when the call fails, `undefined`
 (`Option.None`). A stored list additionally starts out as the React
 placeholder string "0": it is truthy, has length 1, and its single element
 is the character "0", which is not a number.
 */
module Reads {

  datatype Option<+T> = None | Some(value: T)

  /** What a component stores for a list-valued read (token ids or variant indices). */
  datatype Slot =
    | Placeholder                      // the initial useState("0")
    | Fetched(read: Option<seq<int>>)  // the last read: a list, or undefined

  /** JavaScript truthiness of the stored value: "0" and every array are truthy, undefined is not. */
  predicate Truthy(slot: Slot) {
    !(slot.Fetched? && slot.read.None?)
  }

  /** The list when the slot holds one. */
  function List(slot: Slot): Option<seq<int>> {
    if slot.Fetched? then slot.read else None
  }

  /** The `.length` of a truthy stored value; undefined has none, written as 0. */
  function Length(slot: Slot): (n: nat)
    ensures slot.Placeholder? ==> n == 1
    ensures List(slot).Some? ==> n == |List(slot).value|
  {
    match slot
    case Placeholder => 1
    case Fetched(None) => 0
    case Fetched(Some(xs)) => |xs|
  }

  /**
   Indexing `slot[i]` as JavaScript does it, keeping only what a strict `=== k`
   comparison with a number can see: a number at a valid index, and `None` for
   an index outside the list (undefined) or for the placeholder's character.
   */
  function UriAt(slot: Slot, i: int): (u: Option<int>)
    ensures u.Some? <==> List(slot).Some? && 0 <= i < |List(slot).value|
    ensures u.Some? ==> u.value == List(slot).value[i]
  {
    match slot
    case Fetched(Some(xs)) => if 0 <= i < |xs| then Some(xs[i]) else None
    case _ => None
  }
}
